=== FILE: README.md ===
# Duplicate File Finder — a Dafny model

This project models the decision logic of `duplicate_finder.py`. The script runs in two modes:

- `-l` walks the current directory and groups files by `(file name, byte size)`. It then writes every group of two or more paths to a `duplicates_<timestamp>.csv` report, with the paths joined by `|`.
- `-r` selects the most recent report and asks for confirmation. It then keeps the first path of each row and deletes the others that still exist, recording what it kept, what it removed and which removals failed.

The filesystem, the CSV library, the clock and the console are replaced by inputs:

- The walk is a sequence of entries. Each entry holds a directory, a file name, and a size or a size-lookup failure.
- The filesystem of the removal mode is a `set<string>` of existing paths.
- An `Oracle` says which `os.remove` calls fail (and with which error text) and which strings `float()` accepts.
- Report files are given as a name, a ctime and their rows, already decoded into fields.
- The confirmation answer is a string.

Modules (one per file):

- `Paths` (`paths.dfy`): prefix/suffix tests, the `'|'`-join and split, and ASCII lower-casing.
- `Scanner` (`scanner.dfy`): `find_duplicates`. Python's insertion-ordered dict is an association list with distinct keys. `PathsWithKey` is an independent reference: the walk filtered to one key.
- `Report` (`report.dfy`): `list_mode`, which builds the report rows and the reclaimable-space estimate.
- `Reconciler` (`reconciler.dfy`): the row loop of `remove_mode`, as pure steps over a `State` (existing paths plus the kept, removed and error lists). Each step ends in `Completed` or `Aborted`.
- `Cli` (`cli.dfy`): the confirmation, the choice of the latest report, the `remove_mode` driver, and the argument check with its exit status.
- `Pipeline` (`pipeline.dfy`): a report written by the list mode and read back by the removal mode never deletes a group's first path, provided no path contains `|` or a carriage return and the walk reports each path once.
- `Scenarios` (`scenarios.dfy`): two worked examples, and the effect of a file name that contains `|`.

Behaviour of the script worth knowing:

- When no report exists, the script prints a message and exits with status 0.
- The confirmation is case-insensitive (`response.lower() == 'yes'`).
- A row with more than three fields is not skipped. The tuple unpacking at line 118 raises, and the handler at line 168 ends the whole run without writing a log. Deletions already made stay made.
- An empty report file (no header) raises in `next(reader)`, and that also ends the run.
- A size column that `float()` rejects raises `ValueError` at line 142. This happens after a successful `os.remove`, so that file is already gone when the run aborts. A row whose later paths are all missing or all fail to be removed never reaches the conversion and does not abort.
- A file name that contains `|` breaks the path column: it splits into more pieces than the group has paths, and the removal can delete a file of another group.
- The exclusion rule drops every `.py` file, not just the script itself.

## Model

| member | source | states |
|---|---|---|
| Paths.Split | duplicate_finder.py:119-122 | splitting any string gives at least one piece and no piece contains the pipe character, so the `if not paths` branch can never be taken |
| Paths.JoinSplit | duplicate_finder.py:119 | joining the pieces of a split with the pipe character gives back the original string |
| Paths.SplitJoin | duplicate_finder.py:70 | for a non-empty path list, splitting the pipe-joined string gives back the list if and only if no path contains the pipe character |
| Scanner.AppendSpec | duplicate_finder.py:38 | appending a path under a key adds it at the end of that key's list and changes no other key; keys stay distinct and groups non-empty |
| Scanner.WalkIndex | duplicate_finder.py:27-44 | after the walk, the index holds under each key exactly the paths of the non-excluded, sized entries with that name and size, in walk order; `file_count` equals the number of such entries |
| Scanner.KeepDuplicatesShape | duplicate_finder.py:49 | the filter keeps only groups of two or more paths, adds no key and keeps keys distinct |
| Scanner.KeepDuplicatesLookup | duplicate_finder.py:49 | for each key, the filter keeps the path list unchanged if it has two or more paths and drops the key otherwise |
| Scanner.KeepDuplicatesSpec | duplicate_finder.py:49 | the filter keeps exactly the keys with at least two paths, with their lists unchanged |
| Scanner.FindDuplicatesCorrect | duplicate_finder.py:17-49 | every group has at least two paths and equals the walk filtered to its key; each key appears once; a key met at least twice always yields a group; the file count is the number of sized, non-excluded entries |
| Scanner.PathsWithKeyMembers | duplicate_finder.py:33-38 | a path is listed under a key exactly when some sized, non-excluded entry with that key has that path |
| Scanner.GroupProvenance | duplicate_finder.py:33-38 | every path in a group comes from a walked, non-excluded, sized entry with the group's file name and size |
| Scanner.NoExcludedGroups | duplicate_finder.py:30-31 | no group is keyed by a `.py`, `duplicates_*` or `removal_log_*` name |
| Scanner.SkippedEntryAbsent | duplicate_finder.py:30-44 | the path of an excluded entry, or of one whose size lookup failed, is in no group |
| Scanner.WalkSkips | duplicate_finder.py:42-44 | the walk with an excluded or unreadable entry inserted anywhere builds the same index and count as the walk without it |
| Scanner.SkippedEntryTransparent | duplicate_finder.py:42-44 | an unreadable or excluded entry does not stop the scan: the result equals the scan of the walk without that entry |
| Scanner.DiscoveryOrder | duplicate_finder.py:27-38 | the paths contributed by the first n entries form a prefix of the key's final list: discovery order is kept |
| Scanner.PathsWithKeyDistinct | duplicate_finder.py:33-38 | if the walk reports each path once, no path is listed twice under a key |
| Scanner.GroupPathsDistinct | duplicate_finder.py:49 | if the walk reports each path once, no group lists a path twice |
| Scanner.GroupsDisjoint | duplicate_finder.py:38-49 | if the walk reports each path once, no path is in two groups |
| Report.ListMode | duplicate_finder.py:51-77 | writes nothing exactly when no group exists; otherwise writes the header plus one row per group, and the total equals the sum over groups of size × (paths − 1), which is at least every group's size |
| Report.WriteRows | duplicate_finder.py:66-71 | the written file is the header followed by exactly one row per group, in group order, each holding the name, the rendered size and the joined paths; the running total equals the sum over groups of size × (paths − 1) |
| Report.SavingsCoversEachGroup | duplicate_finder.py:68-71 | when every group has at least two paths, the reclaimable total is at least the size of each group |
| Report.SavingsNonNegative | duplicate_finder.py:71 | the reclaimable total is never negative for non-empty groups |
| Report.RowsDecode | duplicate_finder.py:66-70 | the report has a header and one row per group; each row has three fields, the group's name, and a path column that splits back into the group's paths when no path contains the pipe character |
| Reconciler.RemoveDuplicatesEffect | duplicate_finder.py:136-146 | with a numeric size field the loop finishes; exactly the existing paths whose removal does not fail disappear; each existing path whose removal fails adds one error line, in order, and processing continues |
| Reconciler.RemoveDuplicatesFrame | duplicate_finder.py:136-146 | the loop over later paths never changes the kept list, removes only paths from that list, and leaves every other path in place |
| Reconciler.RemoveDuplicatesAccounted | duplicate_finder.py:137-141 | after each removal the filesystem is the initial one minus the removed list; each removed path existed and appears once |
| Reconciler.RemoveDuplicatesAborts | duplicate_finder.py:136-142 | the loop over later paths is cut short if and only if `float()` rejects the size field and at least one later path exists and is removed without error |
| Reconciler.RemoveDuplicatesFloatAbort | duplicate_finder.py:136-146 | with a rejected size field, the first later path that exists and is removable is deleted and recorded, the error lines of the failing paths before it are kept, and the run aborts with nothing after it touched |
| Reconciler.SkippedRowUnchanged | duplicate_finder.py:114-130 | a row leaves the state untouched (nothing deleted, nothing kept) if and only if it has fewer than three fields, fewer than two paths, or a missing first path |
| Reconciler.RowKeepsOriginal | duplicate_finder.py:129-136 | a row whose first path exists appends it to the kept list; the first path still exists after the row unless it recurs among the later paths |
| Reconciler.ProcessRowAccounted | duplicate_finder.py:114-146 | one row keeps the bookkeeping invariant and removes only its own later paths |
| Reconciler.ProcessRowsAccounted | duplicate_finder.py:113-146 | the row loop keeps the bookkeeping invariant; each removed path is a later path of some row |
| Reconciler.ReconcileEffect | duplicate_finder.py:102-146 | completed or aborted, the final filesystem is the initial one minus exactly the removed paths; each removed path existed, is removed once, and is a later path of some data row |
| Reconciler.UntouchedPathsSurvive | duplicate_finder.py:129-141 | a path that existed and is no later path of any data row still exists after the run |
| Reconciler.ProcessRowsAborts | duplicate_finder.py:113-118 | a row with more than three fields always ends the loop aborted; an aborted loop always had a row with too many fields or a non-numeric size |
| Reconciler.ProcessRowAborts | duplicate_finder.py:114-142 | a row aborts if and only if it has more than three fields, or has three, a rejected size field, an existing first path and a later path that exists and is removable |
| Reconciler.ProcessRowsAbortAt | duplicate_finder.py:113-146 | the row loop aborts if and only if some row aborts in the state the completed rows before it left |
| Reconciler.ReconcileAbortsExactly | duplicate_finder.py:102-168 | the run aborts if and only if the file is empty or some data row aborts in the state the completed data rows before it left |
| Reconciler.ReconcileAborts | duplicate_finder.py:102-170 | an empty file or a row with more than three fields aborts the run; any abort comes from one of those or from a non-numeric size field |
| Cli.ConfirmedMeansYes | duplicate_finder.py:92-95 | the run proceeds if and only if the answer is "yes" in any mix of upper and lower case, with nothing else |
| Cli.LatestReport | duplicate_finder.py:87 | the chosen report has a ctime at least that of every candidate, and every earlier candidate has a strictly smaller ctime (first maximum, as `max` picks) |
| Cli.RemoveMode | duplicate_finder.py:79-170 | no candidates gives no processing; processing happens if and only if there is a candidate and the answer is confirmed; without confirmation the filesystem is unchanged; the filesystem only shrinks; a processed run uses the first report with the greatest ctime, as `max` picks |
| Cli.Program | duplicate_finder.py:172-187 | exit status 1 and the usage text exactly when the arguments are not a single `-l` or `-r`; otherwise status 0; `-l` yields the listing of the walk (file count, no-duplicates case, rows and savings of its groups); `-r` yields a removal that finds no report exactly when there is none, processes exactly when confirmed, only shrinks the filesystem, and a processed removal is the reconciliation of the first report with the greatest ctime |
| Pipeline.ReportRowsDecode | duplicate_finder.py:68-70 | when no walked path contains the pipe character or a carriage return, each report row written by the scan decodes back to its group's paths, and its removable paths are the group's later paths |
| Pipeline.FirstPathNotLater | duplicate_finder.py:49 | a group's first path is not among the later paths of any group, when the walk reports each path once |
| Pipeline.FirstPathNeverATail | duplicate_finder.py:129-136 | when the walk reports each path once and no path contains the pipe character or a carriage return, a group's first path is no row's removable path in the written report |
| Pipeline.ScanReportCompletes | duplicate_finder.py:113-142 | when `float()` accepts every rendered size, the removal mode never aborts on a report written by the list mode |
| Pipeline.ScanReportKeepsFirst | duplicate_finder.py:129-141 | when the walk reports each path once and no path contains the pipe character or a carriage return, the first path of each group in the scan's report, if it existed, still exists after the removal |
| Pipeline.ScanReportRemovesTails | duplicate_finder.py:68-70 | when no path contains the pipe character or a carriage return, a path that the removal deleted is a later path of some group of the scan |
| Pipeline.ScanThenRemoveKeepsOriginals | duplicate_finder.py:51-146 | when the walk reports each path once, no path contains the pipe character or a carriage return and every rendered size is accepted by `float()`, removing with the scan's own report completes, keeps the first path of every group that existed, and deletes only later paths of groups |
| Scenarios.TwoCopiesOneGroup | duplicate_finder.py:17-49 | `a.txt` twice and `b.txt` once (10 bytes each) give exactly one group, for `a.txt`, with its paths in discovery order |
| Scenarios.SplitSharedSeparatedName | duplicate_finder.py:70 | two paths made of `a` or `b`, the pipe character and `y` join into a string that splits into the four pieces `a`, `y`, `b`, `y` |
| Scenarios.SeparatorInNameDeletesOther | duplicate_finder.py:70-141 | the row of a group whose name holds the pipe character lists, and deletes, an existing path `b` that is not a path of that group |
| Scenarios.MissingOriginalTouchesNothing | duplicate_finder.py:129-131 | a row whose first path is missing leaves the existing duplicate in place and records nothing |

## Left out

- The directory traversal (`os.walk`), `os.path.getsize`, `os.path.exists`, `os.remove` and `os.path.getctime` are I/O. They become the entry sequence, the path set, the `Oracle` and the given ctimes.
- The `csv` module's quoting and parsing, and the `csv.field_size_limit` loop (lines 8-15), belong to a foreign library and depend on platform integer limits. Rows are taken as already-decoded field sequences.
- Writing the report rows through the CSV writer and reading them back is assumed to give the same fields. That fails for a field holding a carriage return: the report is written with `newline=''` (line 64) but opened for reading without it (line 103), so newline translation turns a `\r` inside a quoted path into `\n`. The removal can then act on paths that are not those of the group.
- The MB column (`f"{size/1024/1024:.2f}"`) is the parameter `mb`, because it is floating-point formatting. The `saved_space` sum of `float(size_mb)` is not modelled; only whether `float()` accepts the field matters, and the `Oracle` decides that.
- `datetime.now()` timestamps in file names, the `glob` pattern match and all console output (progress, warnings, summaries) are left out. They depend on the clock and the filesystem, or only print.
- `total_sets` is only printed and is not modelled.
- The removal log's text layout (lines 151-158) is not modelled. The kept, removed and error lists it is built from are.
- Distinct path strings are taken as distinct files. Two strings naming the same file are not modelled: `./x` and `x`, paths through `..` or with repeated `/`, symlinked or bind-mounted directories, and case-insensitive filesystems. Reconciler.RowKeepsOriginal, Reconciler.UntouchedPathsSurvive, Pipeline.ScanReportKeepsFirst and Pipeline.ScanThenRemoveKeepsOriginals rely on it for their claims that the first path survives; a row `./a.txt|a.txt`, for one, deletes the file it keeps.
- `Oracle` fixes, per path, whether `os.remove` fails. A path that fails on one attempt and succeeds on a later one is not modelled.
- An `OSError` from the ctime lookup, or from opening or writing a file, is not modelled. Neither are two uncaught exceptions outside the `try`, which end the script with a traceback and exit status 1: a `UnicodeEncodeError` from `writer.writerow` (line 70) for a file name that is not valid UTF-8 (Python holds it with lone surrogates, which a Dafny string cannot), after the earlier rows are already written; and an `EOFError` from `input()` (line 92) when standard input is closed. Nor are a `UnicodeDecodeError` from reading the report (line 105) or a `csv.Error` from the reader (line 108); the handler at line 168 would end the run on either.
- Cli.ConfirmedMeansYes: lower-cases ASCII letters only, while Python's `str.lower` is full Unicode. No other character lower-cases to `y`, `e` or `s`.
- Scanner.GroupsDisjoint: assumes the walk reports each path at most once, as `os.walk` does. It does not cover a walk that repeats a path.
- Scanner.PathsWithKeyDistinct: assumes, as above, that the walk reports each path at most once.
- Scanner.GroupPathsDistinct: assumes, as above, that the walk reports each path at most once.
- Scanner.SkippedEntryAbsent: assumes, as above, that the walk reports each path at most once.
- Report.ListMode: the header plus one row per group assumes that `writer.writerow` raises no `UnicodeEncodeError`; with a file name that is not valid UTF-8 the report stops after the earlier rows.
- Cli.Program: exit status 0 for `-l` and `-r` assumes that neither the `UnicodeEncodeError` of line 70 nor the `EOFError` of line 92 occurs; either ends the script with status 1.
- Pipeline.ReportRowsDecode: assumes that no walked path contains '|' or a carriage return (the CSV round trip fails for the latter). A file name that holds it splits into extra pieces; `Scenarios.SeparatorInNameDeletesOther` shows the consequence.
- Pipeline.FirstPathNeverATail: assumes that paths are reported once and that no path contains '|' or a carriage return. Without the second assumption the removal can delete another group's first path, as `Scenarios.SeparatorInNameDeletesOther` shows.
- Pipeline.ScanReportKeepsFirst: assumes that paths are reported once and that no path contains '|' or a carriage return, for the same reason. A carriage return read back as a line feed can make a row delete the first path of another group.
- Pipeline.ScanReportRemovesTails: assumes that no path contains '|' or a carriage return. Otherwise a deleted path can be a piece of a split file name that is no path of any group.
- Pipeline.ScanThenRemoveKeepsOriginals: assumes that paths are reported once, that no path contains '|' or a carriage return, and that the rendered size column is accepted by `float()`. `Paths.SplitJoin` shows that a path containing '|' breaks the round trip.
- Scanner.JoinPath models `os.path.join` for a directory and a bare file name only. Names from the walk never contain '/'.

=== FILE: cli.dfy ===
/** The gates around the two modes: the command line check, the choice of
    the most recent report, the interactive confirmation, and the
    `remove_mode` driver that ties them to the reconciler. The glob, the
    ctime lookup and the console prompt are inputs. */
module Cli {
  import opened Paths
  import opened Scanner
  import opened Report
  import opened Reconciler

  // ---------------------------------------------------------------------
  // Confirmation (line 93)

  /** `response.lower() == 'yes'`. */
  predicate Confirmed(response: string)
  {
    Lower(response) == "yes"
  }

  /** The answer is accepted exactly when it spells "yes" in any mix of
      upper and lower case, with nothing around it. */
  lemma ConfirmedMeansYes(response: string)
    ensures Confirmed(response) <==>
      |response| == 3
      && (response[0] == 'y' || response[0] == 'Y')
      && (response[1] == 'e' || response[1] == 'E')
      && (response[2] == 's' || response[2] == 'S')
  {
    if |response| == 3 {
      var l := Lower(response);
      assert l[0] == LowerChar(response[0]) && l[1] == LowerChar(response[1]) && l[2] == LowerChar(response[2]);
      if Confirmed(response) {
        assert l[0] == 'y' && l[1] == 'e' && l[2] == 's';
      }
    }
  }

  // ---------------------------------------------------------------------
  // The most recent report (lines 82-87)

  /** A file matched by `duplicates_*.csv`, its ctime, and its decoded rows. */
  datatype ReportFile = ReportFile(name: string, ctime: int, rows: seq<seq<string>>)

  /** `max(csv_files, key=os.path.getctime)`: the first file with the
      greatest ctime. */
  method LatestReport(reports: seq<ReportFile>) returns (i: nat)
    requires |reports| > 0
    ensures i < |reports|
    ensures forall j :: 0 <= j < |reports| ==> reports[j].ctime <= reports[i].ctime
    ensures forall j :: 0 <= j < i ==> reports[j].ctime < reports[i].ctime
  {
    i := 0;
    var k := 1;
    while k < |reports|
      invariant 1 <= k <= |reports|
      invariant i < k
      invariant forall j :: 0 <= j < k ==> reports[j].ctime <= reports[i].ctime
      invariant forall j :: 0 <= j < i ==> reports[j].ctime < reports[i].ctime
    {
      if reports[k].ctime > reports[i].ctime {
        i := k;
      }
      k := k + 1;
    }
  }

  // ---------------------------------------------------------------------
  // remove_mode (lines 79-170)

  /** No report at all; the operator declined; or the rows of the chosen
      report were processed (completed with a log, or aborted). */
  datatype Removal =
    | NoReport
    | Cancelled(report: string)
    | Processed(report: string, run: Run)

  /** The filesystem after the removal mode. */
  function FilesAfter(out: Removal, fs: set<string>): set<string>
  {
    match out
    case Processed(_, run) => run.st.fs
    case _ => fs
  }

  method RemoveMode(reports: seq<ReportFile>, response: string, fs: set<string>, o: Oracle)
    returns (out: Removal)
    ensures out.NoReport? <==> |reports| == 0
    ensures out.Processed? <==> |reports| > 0 && Confirmed(response)
    ensures !Confirmed(response) ==> FilesAfter(out, fs) == fs
    ensures FilesAfter(out, fs) <= fs
    ensures out.Processed? ==>
      exists i :: && 0 <= i < |reports|
                  && out.report == reports[i].name
                  && (forall j :: 0 <= j < |reports| ==> reports[j].ctime <= reports[i].ctime)
                  && (forall j :: 0 <= j < i ==> reports[j].ctime < reports[i].ctime)
                  && out.run == Reconcile(fs, reports[i].rows, o)
  {
    if |reports| == 0 {
      return NoReport;
    }
    var i := LatestReport(reports);
    if !Confirmed(response) {
      return Cancelled(reports[i].name);
    }
    ReconcileEffect(fs, reports[i].rows, o);
    out := Processed(reports[i].name, Reconcile(fs, reports[i].rows, o));
  }

  // ---------------------------------------------------------------------
  // The command line (lines 172-187)

  datatype Command = Usage | ListCommand | RemoveCommand

  /** `len(sys.argv) != 2 or sys.argv[1] not in ['-l', '-r']`. */
  function ParseArgs(argv: seq<string>): Command
  {
    if |argv| != 2 then Usage
    else if argv[1] == "-l" then ListCommand
    else if argv[1] == "-r" then RemoveCommand
    else Usage
  }

  /** Everything the program reads from its surroundings. */
  datatype Environment = Environment(
    walk: seq<Entry>,
    mb: nat -> string,
    reports: seq<ReportFile>,
    response: string,
    fs: set<string>,
    oracle: Oracle)

  datatype Effect = PrintedUsage | ListRun(listing: Listing) | RemoveRun(removal: Removal)

  /** The script's entry point: usage error with exit status 1, or one of
      the two modes with exit status 0 (also when no report exists or the
      run is cancelled or aborted). */
  method Program(argv: seq<string>, env: Environment) returns (exitCode: int, effect: Effect)
    ensures exitCode == 1 <==> !(|argv| == 2 && (argv[1] == "-l" || argv[1] == "-r"))
    ensures exitCode == 0 || exitCode == 1
    ensures effect.PrintedUsage? <==> exitCode == 1
    ensures effect.ListRun? <==> |argv| == 2 && argv[1] == "-l"
    ensures effect.RemoveRun? <==> |argv| == 2 && argv[1] == "-r"
    ensures effect.ListRun? ==>
      var gs := FindDuplicates(env.walk).groups;
      && effect.listing.fileCount == CountedEntries(env.walk)
      && (effect.listing.NoDuplicates? <==> |gs| == 0)
      && (effect.listing.Listed? ==>
            && effect.listing.groupCount == |gs|
            && effect.listing.rows == Rows(gs, env.mb)
            && effect.listing.reclaimable == Savings(gs))
    ensures effect.RemoveRun? ==>
      && (effect.removal.NoReport? <==> |env.reports| == 0)
      && (effect.removal.Processed? <==> |env.reports| > 0 && Confirmed(env.response))
      && (!Confirmed(env.response) ==> FilesAfter(effect.removal, env.fs) == env.fs)
      && FilesAfter(effect.removal, env.fs) <= env.fs
      && (effect.removal.Processed? ==>
            exists i :: && 0 <= i < |env.reports|
                        && effect.removal.report == env.reports[i].name
                        && (forall j :: 0 <= j < |env.reports| ==> env.reports[j].ctime <= env.reports[i].ctime)
                        && (forall j :: 0 <= j < i ==> env.reports[j].ctime < env.reports[i].ctime)
                        && effect.removal.run == Reconcile(env.fs, env.reports[i].rows, env.oracle))
  {
    match ParseArgs(argv)
    case Usage =>
      exitCode, effect := 1, PrintedUsage;
    case ListCommand =>
      var listing := ListMode(env.walk, env.mb);
      exitCode, effect := 0, ListRun(listing);
    case RemoveCommand =>
      var removal := RemoveMode(env.reports, env.response, env.fs, env.oracle);
      exitCode, effect := 0, RemoveRun(removal);
  }
}

=== FILE: paths.dfy ===
/** String helpers used by the duplicate finder: name prefix/suffix tests,
    the '|'-joined path list written into the report's third column and
    split again when the report is read back, and ASCII lower-casing of
    the confirmation answer. */
module Paths {

  /** The separator between paths in the report's path column. */
  const Sep: char := '|'

  predicate StartsWith(s: string, prefix: string)
  {
    |prefix| <= |s| && s[..|prefix|] == prefix
  }

  predicate EndsWith(s: string, suffix: string)
  {
    |suffix| <= |s| && s[|s| - |suffix|..] == suffix
  }

  /** No path occurs twice. */
  predicate Distinct(ps: seq<string>)
  {
    forall a, b :: 0 <= a < b < |ps| ==> ps[a] != ps[b]
  }

  /** `'|'.join(parts)`. */
  function Join(parts: seq<string>): string
    decreases |parts|
  {
    if |parts| == 0 then ""
    else if |parts| == 1 then parts[0]
    else parts[0] + [Sep] + Join(parts[1..])
  }

  /** `s.split('|')`: always at least one piece, and no piece holds the
      separator. */
  function Split(s: string): (r: seq<string>)
    ensures |r| >= 1
    ensures forall i :: 0 <= i < |r| ==> Sep !in r[i]
    decreases |s|
  {
    if |s| == 0 then [""]
    else
      var rest := Split(s[1..]);
      if s[0] == Sep then [""] + rest
      else [[s[0]] + rest[0]] + rest[1..]
  }

  lemma {:induction false} JoinCons(c: char, parts: seq<string>)
    requires |parts| >= 1
    ensures Join([[c] + parts[0]] + parts[1..]) == [c] + Join(parts)
  {
    var q := [[c] + parts[0]] + parts[1..];
    assert q[0] == [c] + parts[0];
    assert q[1..] == parts[1..];
    if |parts| == 1 {
      assert Join(q) == q[0];
      assert Join(parts) == parts[0];
    } else {
      assert Join(q) == q[0] + [Sep] + Join(q[1..]);
      assert Join(parts) == parts[0] + [Sep] + Join(parts[1..]);
    }
  }

  /** Splitting undoes joining for every string: `'|'.join(s.split('|')) == s`. */
  lemma {:induction false} JoinSplit(s: string)
    ensures Join(Split(s)) == s
    decreases |s|
  {
    if |s| > 0 {
      var rest := Split(s[1..]);
      JoinSplit(s[1..]);
      if s[0] == Sep {
        assert ([""] + rest)[1..] == rest;
        assert s == [Sep] + s[1..];
      } else {
        JoinCons(s[0], rest);
        assert s == [s[0]] + s[1..];
      }
    }
  }

  /** A separator-free prefix glues onto the first piece of what follows. */
  lemma {:induction false} SplitPrefix(p: string, t: string)
    requires Sep !in p
    ensures Split(p + t) == [p + Split(t)[0]] + Split(t)[1..]
    decreases |p|
  {
    var st := Split(t);
    if |p| == 0 {
      assert p + t == t;
      assert p + st[0] == st[0];
      assert st == [st[0]] + st[1..];
    } else {
      SplitPrefix(p[1..], t);
      assert (p + t)[1..] == p[1..] + t;
      assert [p[0]] + (p[1..] + Split(t)[0]) == p + Split(t)[0];
    }
  }

  lemma {:induction false} SplitAfterSep(p: string, rest: string)
    requires Sep !in p
    ensures Split(p + [Sep] + rest) == [p] + Split(rest)
  {
    assert p + [Sep] + rest == p + ([Sep] + rest);
    var s := [Sep] + rest;
    assert s[0] == Sep && s[1..] == rest;
    assert Split(s) == [""] + Split(rest);
    SplitPrefix(p, s);
    assert p + "" == p;
    assert Split(s)[1..] == Split(rest);
  }

  /** Splitting `'|'.join(parts)` gives back `parts` exactly when no part
      contains the separator (for a non-empty list; the empty list joins to
      "" which splits to [""]). */
  lemma {:induction false} SplitJoin(parts: seq<string>)
    requires |parts| >= 1
    ensures Split(Join(parts)) == parts <==> forall i :: 0 <= i < |parts| ==> Sep !in parts[i]
    decreases |parts|
  {
    if forall i :: 0 <= i < |parts| ==> Sep !in parts[i] {
      if |parts| == 1 {
        SplitPrefix(parts[0], "");
        assert parts[0] + "" == parts[0];
      } else {
        SplitJoin(parts[1..]);
        SplitAfterSep(parts[0], Join(parts[1..]));
      }
    }
  }

  function LowerChar(c: char): char
  {
    if 'A' <= c <= 'Z' then (c as int + 32) as char else c
  }

  /** `s.lower()` restricted to ASCII letters. */
  function Lower(s: string): string
  {
    seq(|s|, i requires 0 <= i < |s| => LowerChar(s[i]))
  }
}

=== FILE: pipeline.dfy ===
/** The two invocations together: the report written by the list mode,
    read back by the removal mode, never deletes the file each group keeps. */
module Pipeline {
  import opened Paths
  import opened Scanner
  import opened Report
  import opened Reconciler

  /** No walked path contains the report's path separator. */
  predicate NoSeparatorInPaths(es: seq<Entry>)
  {
    forall j :: 0 <= j < |es| ==> Sep !in PathOf(es[j])
  }

  /** Each data row of the report decodes to its group: the row's first
      path is the group's first path and the row's removable paths are the
      group's other paths. */
  lemma ReportRowsDecode(es: seq<Entry>, mb: nat -> string)
    requires NoSeparatorInPaths(es)
    ensures var gs := FindDuplicates(es).groups;
      forall i :: 0 <= i < |gs| ==>
        && |Rows(gs, mb)[i + 1]| == 3
        && Split(Rows(gs, mb)[i + 1][2]) == gs[i].paths
        && RowTail(Rows(gs, mb)[i + 1]) == gs[i].paths[1..]
  {
    var gs := FindDuplicates(es).groups;
    FindDuplicatesCorrect(es);
    forall i, j | 0 <= i < |gs| && 0 <= j < |gs[i].paths| ensures Sep !in gs[i].paths[j] {
      GroupProvenance(es, i, gs[i].paths[j]);
    }
    RowsDecode(gs, mb);
  }

  /** A group's first path is not among the later paths of any group. */
  lemma FirstPathNotLater(es: seq<Entry>, i: nat, j: nat)
    requires DistinctPaths(es)
    requires i < |FindDuplicates(es).groups| && j < |FindDuplicates(es).groups|
    ensures |FindDuplicates(es).groups[i].paths| >= 2 && |FindDuplicates(es).groups[j].paths| >= 2
    ensures FindDuplicates(es).groups[i].paths[0] !in FindDuplicates(es).groups[j].paths[1..]
  {
    var gs := FindDuplicates(es).groups;
    FindDuplicatesCorrect(es);
    var p := gs[i].paths[0];
    if i == j {
      GroupPathsDistinct(es, i);
    } else {
      GroupsDisjoint(es, i, j);
      assert p in gs[i].paths;
    }
  }

  /** A group's first path is none of the report's removable paths. */
  lemma FirstPathNeverATail(es: seq<Entry>, mb: nat -> string, i: nat)
    requires DistinctPaths(es) && NoSeparatorInPaths(es)
    requires i < |FindDuplicates(es).groups|
    ensures |FindDuplicates(es).groups[i].paths| >= 2
    ensures var file := Rows(FindDuplicates(es).groups, mb);
      forall j :: 1 <= j < |file| ==> FindDuplicates(es).groups[i].paths[0] !in RowTail(file[j])
  {
    var gs := FindDuplicates(es).groups;
    var file := Rows(gs, mb);
    FirstPathNotLater(es, i, i);
    ReportRowsDecode(es, mb);
    forall j | 1 <= j < |file| ensures gs[i].paths[0] !in RowTail(file[j]) {
      FirstPathNotLater(es, i, j - 1);
    }
  }

  /** The scan's own report never aborts the removal mode: it has a
      header, every data row has three fields, and the size column is
      accepted by `float()`. */
  lemma ScanReportCompletes(es: seq<Entry>, mb: nat -> string, fs: set<string>, o: Oracle)
    requires forall n: nat :: o.isFloat(mb(n))
    ensures Reconcile(fs, Rows(FindDuplicates(es).groups, mb), o).Completed?
  {
    var gs := FindDuplicates(es).groups;
    var file := Rows(gs, mb);
    ReconcileAborts(fs, file, o);
    forall j | 1 <= j < |file| ensures !Fatal(file[j], o) {
      assert file[j] == Row(gs[j - 1], mb);
    }
  }

  /** The first path of a group, if it existed, survives the removal. */
  lemma ScanReportKeepsFirst(es: seq<Entry>, mb: nat -> string, fs: set<string>, o: Oracle, i: nat)
    requires DistinctPaths(es) && NoSeparatorInPaths(es)
    requires i < |FindDuplicates(es).groups|
    ensures |FindDuplicates(es).groups[i].paths| >= 2
    ensures FindDuplicates(es).groups[i].paths[0] in fs ==>
      FindDuplicates(es).groups[i].paths[0] in Reconcile(fs, Rows(FindDuplicates(es).groups, mb), o).st.fs
  {
    FirstPathNeverATail(es, mb, i);
    if FindDuplicates(es).groups[i].paths[0] in fs {
      UntouchedPathsSurvive(fs, Rows(FindDuplicates(es).groups, mb), o, FindDuplicates(es).groups[i].paths[0]);
    }
  }

  /** A path that disappeared was a later path of some group. */
  lemma ScanReportRemovesTails(es: seq<Entry>, mb: nat -> string, fs: set<string>, o: Oracle, p: string)
    requires NoSeparatorInPaths(es)
    requires p in fs && p !in Reconcile(fs, Rows(FindDuplicates(es).groups, mb), o).st.fs
    ensures exists i ::
      && 0 <= i < |FindDuplicates(es).groups|
      && |FindDuplicates(es).groups[i].paths| >= 1
      && p in FindDuplicates(es).groups[i].paths[1..]
  {
    var gs := FindDuplicates(es).groups;
    var file := Rows(gs, mb);
    FindDuplicatesCorrect(es);
    ReportRowsDecode(es, mb);
    ReconcileEffect(fs, file, o);
    var j :| 1 <= j < |file| && p in RowTail(file[j]);
    assert p in gs[j - 1].paths[1..];
  }

  /** Scan, then remove with the resulting report: the run completes; the
      first path of every group that existed still exists; every path that
      disappeared was a later path of some group. */
  lemma ScanThenRemoveKeepsOriginals(es: seq<Entry>, mb: nat -> string, fs: set<string>, o: Oracle)
    requires DistinctPaths(es) && NoSeparatorInPaths(es)
    requires forall n: nat :: o.isFloat(mb(n))
    ensures var gs := FindDuplicates(es).groups;
      var run := Reconcile(fs, Rows(gs, mb), o);
      && run.Completed?
      && (forall i :: 0 <= i < |gs| ==> |gs[i].paths| >= 2)
      && (forall i :: 0 <= i < |gs| && gs[i].paths[0] in fs ==> gs[i].paths[0] in run.st.fs)
      && (forall p :: p in fs && p !in run.st.fs ==> exists i :: 0 <= i < |gs| && p in gs[i].paths[1..])
  {
    var gs := FindDuplicates(es).groups;
    var run := Reconcile(fs, Rows(gs, mb), o);
    FindDuplicatesCorrect(es);
    ScanReportCompletes(es, mb, fs, o);
    forall i | 0 <= i < |gs| && gs[i].paths[0] in fs ensures gs[i].paths[0] in run.st.fs {
      ScanReportKeepsFirst(es, mb, fs, o, i);
    }
    forall p | p in fs && p !in run.st.fs ensures exists i :: 0 <= i < |gs| && p in gs[i].paths[1..] {
      ScanReportRemovesTails(es, mb, fs, o, p);
    }
  }
}

=== FILE: reconciler.dfy ===
/** The row loop of `remove_mode` as a state machine over an abstract
    filesystem. The filesystem is the set of existing paths; the oracle
    says which removals fail (and with what error text) and which size
    fields `float()` accepts. Rows are already decoded CSV fields. */
module Reconciler {
  import opened Paths

  /** The existing paths and the three lists the audit log is made of. */
  datatype State = State(fs: set<string>, kept: seq<string>, removed: seq<string>, errors: seq<string>)

  /** A run completes (and writes its log), or is aborted by an exception
      caught at the end of `remove_mode`: no log, deletions already made
      stay made. */
  datatype Run = Completed(st: State) | Aborted(st: State)

  /** What the model cannot compute itself: `os.remove` fails on exactly
      the paths in `failures`, raising the given text; `float(s)` succeeds
      exactly when `isFloat(s)`. */
  datatype Oracle = Oracle(failures: map<string, string>, isFloat: string -> bool)

  function Start(fs: set<string>): State
  {
    State(fs, [], [], [])
  }

  function Elems(ps: seq<string>): set<string>
  {
    set p | p in ps
  }

  function ErrorLine(p: string, reason: string): string
  {
    "Error removing " + p + ": " + reason
  }

  /** One later path of a row (lines 137-146): absent paths are skipped
      silently; a failing removal is recorded as an error; otherwise the
      path disappears and is recorded as removed, and then the row's size
      field is converted with `float()`, whose `ValueError` is not caught
      here and aborts the run. */
  function RemoveDuplicate(st: State, p: string, sizeField: string, o: Oracle): Run
  {
    if p !in st.fs then Completed(st)
    else if p in o.failures then Completed(st.(errors := st.errors + [ErrorLine(p, o.failures[p])]))
    else
      var st' := st.(fs := st.fs - {p}, removed := st.removed + [p]);
      if o.isFloat(sizeField) then Completed(st') else Aborted(st')
  }

  /** `for dup_path in paths[1:]` (line 136). */
  function RemoveDuplicates(st: State, ps: seq<string>, sizeField: string, o: Oracle): Run
    decreases |ps|
  {
    if |ps| == 0 then Completed(st)
    else match RemoveDuplicate(st, ps[0], sizeField, o)
      case Aborted(s) => Aborted(s)
      case Completed(s) => RemoveDuplicates(s, ps[1..], sizeField, o)
  }

  /** One CSV row (lines 114-146). Fewer than three fields: skipped. More
      than three: the unpacking at line 118 raises and the run aborts. The
      path column is split on '|' (never empty, so the `if not paths` test
      cannot fire); fewer than two paths, or a first path that no longer
      exists: skipped. Otherwise the first path is kept and the others go. */
  function ProcessRow(st: State, row: seq<string>, o: Oracle): Run
  {
    if |row| < 3 then Completed(st)
    else if |row| > 3 then Aborted(st)
    else
      var paths := Split(row[2]);
      if |paths| < 2 then Completed(st)
      else if paths[0] !in st.fs then Completed(st)
      else RemoveDuplicates(st.(kept := st.kept + [paths[0]]), paths[1..], row[1], o)
  }

  function ProcessRows(st: State, rows: seq<seq<string>>, o: Oracle): Run
    decreases |rows|
  {
    if |rows| == 0 then Completed(st)
    else match ProcessRow(st, rows[0], o)
      case Aborted(s) => Aborted(s)
      case Completed(s) => ProcessRows(s, rows[1..], o)
  }

  /** The body of the `try` in `remove_mode` (lines 102-146) on the lines
      of the report file: the header is skipped with `next(reader)`, which
      raises on an empty file, and that too aborts the run. */
  function Reconcile(fs: set<string>, file: seq<seq<string>>, o: Oracle): Run
  {
    if |file| == 0 then Aborted(Start(fs))
    else ProcessRows(Start(fs), file[1..], o)
  }

  /** The paths a row can remove: the later paths of a three-field row
      with at least two paths. */
  function RowTail(row: seq<string>): seq<string>
  {
    if |row| == 3 && |Split(row[2])| >= 2 then Split(row[2])[1..] else []
  }

  /** Reference: the error lines a sequence of removals reports, judged on
      the filesystem before the first of them. */
  function FailureLines(fs: set<string>, ps: seq<string>, failures: map<string, string>): seq<string>
    decreases |ps|
  {
    if |ps| == 0 then []
    else
      var here := if ps[0] in fs && ps[0] in failures then [ErrorLine(ps[0], failures[ps[0]])] else [];
      here + FailureLines(fs, ps[1..], failures)
  }

  /** The bookkeeping invariant: the filesystem is the initial one minus
      exactly the removed paths, each of which existed and was removed once. */
  predicate Accounted(fs0: set<string>, st: State)
  {
    && Elems(st.removed) <= fs0
    && st.fs == fs0 - Elems(st.removed)
    && Distinct(st.removed)
  }

  // ---------------------------------------------------------------------
  // Removing the later paths of one row

  lemma {:induction false} FailureLinesAgree(fs1: set<string>, fs2: set<string>, ps: seq<string>, failures: map<string, string>)
    requires forall q :: q in failures ==> (q in fs1 <==> q in fs2)
    ensures FailureLines(fs1, ps, failures) == FailureLines(fs2, ps, failures)
    decreases |ps|
  {
    if |ps| > 0 {
      FailureLinesAgree(fs1, fs2, ps[1..], failures);
    }
  }

  /** Removing a row's later paths when its size field converts: the loop
      runs to the end; exactly the existing paths whose removal does not
      fail disappear; every existing path whose removal fails adds one
      error line, in order, and the loop carries on past it. */
  lemma {:induction false} RemoveDuplicatesEffect(st: State, ps: seq<string>, sizeField: string, o: Oracle)
    requires o.isFloat(sizeField)
    ensures RemoveDuplicates(st, ps, sizeField, o).Completed?
    ensures RemoveDuplicates(st, ps, sizeField, o).st.fs == st.fs - (Elems(ps) - o.failures.Keys)
    ensures RemoveDuplicates(st, ps, sizeField, o).st.errors == st.errors + FailureLines(st.fs, ps, o.failures)
    decreases |ps|
  {
    if |ps| > 0 {
      var st1 := RemoveDuplicate(st, ps[0], sizeField, o).st;
      RemoveDuplicatesEffect(st1, ps[1..], sizeField, o);
      FailureLinesAgree(st1.fs, st.fs, ps[1..], o.failures);
      assert Elems(ps) == {ps[0]} + Elems(ps[1..]);
    }
  }

  /** Whether or not the loop is cut short: the kept list is untouched,
      only paths of `ps` are removed, and paths outside `ps` stay. */
  lemma {:induction false} RemoveDuplicatesFrame(st: State, ps: seq<string>, sizeField: string, o: Oracle)
    ensures RemoveDuplicates(st, ps, sizeField, o).st.kept == st.kept
    ensures forall p :: p in RemoveDuplicates(st, ps, sizeField, o).st.removed ==> p in st.removed || p in ps
    ensures forall q :: q in st.fs && q !in ps ==> q in RemoveDuplicates(st, ps, sizeField, o).st.fs
    decreases |ps|
  {
    if |ps| > 0 {
      var r := RemoveDuplicate(st, ps[0], sizeField, o);
      if r.Completed? {
        RemoveDuplicatesFrame(r.st, ps[1..], sizeField, o);
      }
    }
  }

  /** Removing later paths keeps the bookkeeping invariant, even when the
      run is cut short. */
  lemma {:induction false} RemoveDuplicatesAccounted(fs0: set<string>, st: State, ps: seq<string>, sizeField: string, o: Oracle)
    requires Accounted(fs0, st)
    ensures Accounted(fs0, RemoveDuplicates(st, ps, sizeField, o).st)
    decreases |ps|
  {
    if |ps| > 0 {
      var r := RemoveDuplicate(st, ps[0], sizeField, o);
      var st1 := r.st;
      if ps[0] in st.fs && ps[0] !in o.failures {
        assert Elems(st1.removed) == Elems(st.removed) + {ps[0]};
        forall a, b | 0 <= a < b < |st1.removed| ensures st1.removed[a] != st1.removed[b] {
          if b == |st.removed| {
            assert st1.removed[a] == st.removed[a];
          } else {
            assert st1.removed[a] == st.removed[a] && st1.removed[b] == st.removed[b];
          }
        }
      }
      if r.Completed? {
        RemoveDuplicatesAccounted(fs0, st1, ps[1..], sizeField, o);
      }
    }
  }

  /** A later path the loop would actually delete: it exists and its
      removal does not fail. */
  predicate Deletable(fs: set<string>, p: string, o: Oracle)
  {
    p in fs && p !in o.failures
  }

  /** The loop is cut short exactly when `float()` rejects the size field
      and some later path gets deleted: the conversion runs right after
      the first successful `os.remove` (lines 139-142). */
  lemma {:induction false} RemoveDuplicatesAborts(st: State, ps: seq<string>, sizeField: string, o: Oracle)
    ensures RemoveDuplicates(st, ps, sizeField, o).Aborted? <==>
      !o.isFloat(sizeField) && exists k :: 0 <= k < |ps| && Deletable(st.fs, ps[k], o)
    decreases |ps|
  {
    if |ps| > 0 {
      var r := RemoveDuplicate(st, ps[0], sizeField, o);
      if r.Completed? {
        RemoveDuplicatesAborts(r.st, ps[1..], sizeField, o);
        if !Deletable(st.fs, ps[0], o) {
          assert r.st.fs == st.fs;
          if exists k :: 0 <= k < |ps| && Deletable(st.fs, ps[k], o) {
            var k :| 0 <= k < |ps| && Deletable(st.fs, ps[k], o);
            assert ps[1..][k - 1] == ps[k];
          }
          if exists k :: 0 <= k < |ps[1..]| && Deletable(r.st.fs, ps[1..][k], o) {
            var k :| 0 <= k < |ps[1..]| && Deletable(r.st.fs, ps[1..][k], o);
            assert ps[k + 1] == ps[1..][k];
          }
        }
      }
    }
  }

  /** When `float()` rejects the size field, the first deletable later
      path is removed and recorded, and then the run aborts: the error
      lines of the failing paths before it are kept, nothing after it is
      touched. */
  lemma {:induction false} RemoveDuplicatesFloatAbort(st: State, ps: seq<string>, sizeField: string, o: Oracle, k: nat)
    requires !o.isFloat(sizeField)
    requires k < |ps| && Deletable(st.fs, ps[k], o)
    requires forall m :: 0 <= m < k ==> !Deletable(st.fs, ps[m], o)
    ensures var r := RemoveDuplicates(st, ps, sizeField, o);
      && r.Aborted?
      && r.st.fs == st.fs - {ps[k]}
      && r.st.removed == st.removed + [ps[k]]
      && r.st.kept == st.kept
      && r.st.errors == st.errors + FailureLines(st.fs, ps[..k], o.failures)
    decreases k
  {
    if k > 0 {
      var r := RemoveDuplicate(st, ps[0], sizeField, o);
      assert !Deletable(st.fs, ps[0], o);
      assert r.st.fs == st.fs;
      forall m | 0 <= m < k - 1 ensures !Deletable(r.st.fs, ps[1..][m], o) {
        assert ps[1..][m] == ps[m + 1];
      }
      RemoveDuplicatesFloatAbort(r.st, ps[1..], sizeField, o, k - 1);
      assert ps[..k][1..] == ps[1..][..k - 1];
    }
  }

  // ---------------------------------------------------------------------
  // One row

  /** Rows that cannot delete anything: too few fields, too few paths, or
      an original that is gone. Exactly these rows leave the state as it
      was; any other row aborts or adds its original to the kept list. */
  lemma SkippedRowUnchanged(st: State, row: seq<string>, o: Oracle)
    ensures ProcessRow(st, row, o) == Completed(st) <==>
      |row| < 3 || (|row| == 3 && (|Split(row[2])| < 2 || Split(row[2])[0] !in st.fs))
  {
    if |row| == 3 && |Split(row[2])| >= 2 && Split(row[2])[0] in st.fs {
      RowKeepsOriginal(st, row, o);
      assert |ProcessRow(st, row, o).st.kept| == |st.kept| + 1;
    }
  }

  /** A row whose original exists keeps it: it is appended to the kept
      list and, unless it recurs among the row's later paths, still exists
      after the row. */
  lemma RowKeepsOriginal(st: State, row: seq<string>, o: Oracle)
    requires |row| == 3 && |Split(row[2])| >= 2 && Split(row[2])[0] in st.fs
    ensures var r := ProcessRow(st, row, o);
      && (o.isFloat(row[1]) ==> r.Completed?)
      && r.st.kept == st.kept + [Split(row[2])[0]]
      && (Split(row[2])[0] !in Split(row[2])[1..] ==> Split(row[2])[0] in r.st.fs)
  {
    var ps := Split(row[2]);
    var st1 := st.(kept := st.kept + [ps[0]]);
    RemoveDuplicatesFrame(st1, ps[1..], row[1], o);
    if o.isFloat(row[1]) {
      RemoveDuplicatesEffect(st1, ps[1..], row[1], o);
    }
  }

  lemma ProcessRowAccounted(fs0: set<string>, st: State, row: seq<string>, o: Oracle)
    requires Accounted(fs0, st)
    ensures Accounted(fs0, ProcessRow(st, row, o).st)
    ensures forall p :: p in ProcessRow(st, row, o).st.removed ==> p in st.removed || p in RowTail(row)
  {
    if |row| == 3 && |Split(row[2])| >= 2 && Split(row[2])[0] in st.fs {
      var ps := Split(row[2]);
      var st1 := st.(kept := st.kept + [ps[0]]);
      RemoveDuplicatesAccounted(fs0, st1, ps[1..], row[1], o);
      RemoveDuplicatesFrame(st1, ps[1..], row[1], o);
    }
  }

  // ---------------------------------------------------------------------
  // The whole run

  lemma {:induction false} ProcessRowsAccounted(fs0: set<string>, st: State, rows: seq<seq<string>>, o: Oracle)
    requires Accounted(fs0, st)
    ensures Accounted(fs0, ProcessRows(st, rows, o).st)
    ensures forall p :: p in ProcessRows(st, rows, o).st.removed ==>
      p in st.removed || exists j :: 0 <= j < |rows| && p in RowTail(rows[j])
    decreases |rows|
  {
    if |rows| > 0 {
      ProcessRowAccounted(fs0, st, rows[0], o);
      var r := ProcessRow(st, rows[0], o);
      if r.Completed? {
        ProcessRowsAccounted(fs0, r.st, rows[1..], o);
        forall p | p in ProcessRows(st, rows, o).st.removed
          ensures p in st.removed || exists j :: 0 <= j < |rows| && p in RowTail(rows[j])
        {
          if p in r.st.removed {
            if p !in st.removed {
              assert p in RowTail(rows[0]);
            }
          } else {
            var j :| 0 <= j < |rows[1..]| && p in RowTail(rows[1..][j]);
            assert rows[1..][j] == rows[j + 1];
          }
        }
      } else {
        forall p | p in ProcessRows(st, rows, o).st.removed
          ensures p in st.removed || exists j :: 0 <= j < |rows| && p in RowTail(rows[j])
        {
          if p !in st.removed {
            assert p in RowTail(rows[0]);
          }
        }
      }
    }
  }

  /** The final filesystem (of a completed or an aborted run) is the
      initial one minus exactly the removed paths; each removed path
      existed, is removed once, and is a later path of some data row. */
  lemma ReconcileEffect(fs: set<string>, file: seq<seq<string>>, o: Oracle)
    ensures var r := Reconcile(fs, file, o).st;
      && Elems(r.removed) <= fs
      && r.fs == fs - Elems(r.removed)
      && Distinct(r.removed)
    ensures forall p :: p in Reconcile(fs, file, o).st.removed ==>
      exists j :: 1 <= j < |file| && p in RowTail(file[j])
  {
    if |file| > 0 {
      ProcessRowsAccounted(fs, Start(fs), file[1..], o);
      forall p | p in Reconcile(fs, file, o).st.removed
        ensures exists j :: 1 <= j < |file| && p in RowTail(file[j])
      {
        var j :| 0 <= j < |file[1..]| && p in RowTail(file[1..][j]);
        assert file[1..][j] == file[j + 1];
      }
    }
  }

  /** Nothing else changes: a path that existed and is no later path of
      any data row still exists after the run. */
  lemma UntouchedPathsSurvive(fs: set<string>, file: seq<seq<string>>, o: Oracle, p: string)
    requires p in fs
    requires forall j :: 1 <= j < |file| ==> p !in RowTail(file[j])
    ensures p in Reconcile(fs, file, o).st.fs
  {
    ReconcileEffect(fs, file, o);
  }

  /** A row that makes the run abort has more than three fields, or has
      three and a size field `float()` rejects. */
  predicate Fatal(row: seq<string>, o: Oracle)
  {
    |row| > 3 || (|row| == 3 && !o.isFloat(row[1]))
  }

  /** A row with more than three fields always aborts the run (if an
      earlier row has not already); an aborted run always had a fatal row. */
  lemma {:induction false} ProcessRowsAborts(st: State, rows: seq<seq<string>>, o: Oracle)
    ensures (exists j :: 0 <= j < |rows| && |rows[j]| > 3) ==> ProcessRows(st, rows, o).Aborted?
    ensures ProcessRows(st, rows, o).Aborted? ==> exists j :: 0 <= j < |rows| && Fatal(rows[j], o)
    decreases |rows|
  {
    if |rows| > 0 {
      var r := ProcessRow(st, rows[0], o);
      if |rows[0]| == 3 && |Split(rows[0][2])| >= 2 && Split(rows[0][2])[0] in st.fs {
        var ps := Split(rows[0][2]);
        RemoveDuplicatesAborts(st.(kept := st.kept + [ps[0]]), ps[1..], rows[0][1], o);
      }
      if r.Completed? {
        ProcessRowsAborts(r.st, rows[1..], o);
        if exists j :: 0 <= j < |rows[1..]| && Fatal(rows[1..][j], o) {
          var j :| 0 <= j < |rows[1..]| && Fatal(rows[1..][j], o);
          assert rows[j + 1] == rows[1..][j];
        }
        if exists j :: 0 <= j < |rows| && |rows[j]| > 3 {
          var j :| 0 <= j < |rows| && |rows[j]| > 3;
          assert j > 0 && rows[1..][j - 1] == rows[j];
        }
      } else {
        assert Fatal(rows[0], o);
      }
    }
  }

  /** A row that aborts the run when it is reached with the existing paths
      `fs`: too many fields to unpack (line 118), or a size field `float()`
      rejects in a row that deletes at least one later path (line 142). */
  predicate RowAborts(fs: set<string>, row: seq<string>, o: Oracle)
  {
    || |row| > 3
    || (&& |row| == 3
        && !o.isFloat(row[1])
        && |Split(row[2])| >= 2
        && Split(row[2])[0] in fs
        && exists k :: 1 <= k < |Split(row[2])| && Deletable(fs, Split(row[2])[k], o))
  }

  lemma ProcessRowAborts(st: State, row: seq<string>, o: Oracle)
    ensures ProcessRow(st, row, o).Aborted? <==> RowAborts(st.fs, row, o)
  {
    if |row| == 3 && |Split(row[2])| >= 2 && Split(row[2])[0] in st.fs {
      var ps := Split(row[2]);
      var st1 := st.(kept := st.kept + [ps[0]]);
      RemoveDuplicatesAborts(st1, ps[1..], row[1], o);
      if exists k :: 1 <= k < |ps| && Deletable(st.fs, ps[k], o) {
        var k :| 1 <= k < |ps| && Deletable(st.fs, ps[k], o);
        assert ps[1..][k - 1] == ps[k];
      }
      if exists k :: 0 <= k < |ps[1..]| && Deletable(st1.fs, ps[1..][k], o) {
        var k :| 0 <= k < |ps[1..]| && Deletable(st1.fs, ps[1..][k], o);
        assert ps[k + 1] == ps[1..][k];
      }
    }
  }

  /** The row loop aborts exactly when some row aborts in the state the
      rows before it left behind, those rows having completed. */
  lemma {:induction false} ProcessRowsAbortAt(st: State, rows: seq<seq<string>>, o: Oracle)
    ensures ProcessRows(st, rows, o).Aborted? <==>
      exists j :: && 0 <= j < |rows|
                  && ProcessRows(st, rows[..j], o).Completed?
                  && RowAborts(ProcessRows(st, rows[..j], o).st.fs, rows[j], o)
    decreases |rows|
  {
    if |rows| > 0 {
      ProcessRowAborts(st, rows[0], o);
      assert ProcessRows(st, rows[..0], o) == Completed(st);
      var r := ProcessRow(st, rows[0], o);
      if r.Completed? {
        var s := r.st;
        ProcessRowsAbortAt(s, rows[1..], o);
        forall j | 1 <= j <= |rows| ensures ProcessRows(st, rows[..j], o) == ProcessRows(s, rows[1..][..j - 1], o) {
          assert rows[..j][0] == rows[0];
          assert rows[..j][1..] == rows[1..][..j - 1];
        }
        if ProcessRows(st, rows, o).Aborted? {
          var j :| && 0 <= j < |rows[1..]|
                   && ProcessRows(s, rows[1..][..j], o).Completed?
                   && RowAborts(ProcessRows(s, rows[1..][..j], o).st.fs, rows[1..][j], o);
          assert rows[j + 1] == rows[1..][j];
        }
        if exists j :: && 0 <= j < |rows|
                       && ProcessRows(st, rows[..j], o).Completed?
                       && RowAborts(ProcessRows(st, rows[..j], o).st.fs, rows[j], o) {
          var j :| && 0 <= j < |rows|
                   && ProcessRows(st, rows[..j], o).Completed?
                   && RowAborts(ProcessRows(st, rows[..j], o).st.fs, rows[j], o);
          assert j > 0 && rows[1..][j - 1] == rows[j];
        }
      }
    }
  }

  /** The whole run aborts exactly on an empty file, or when some data row
      aborts in the state the data rows before it left behind. */
  lemma ReconcileAbortsExactly(fs: set<string>, file: seq<seq<string>>, o: Oracle)
    ensures Reconcile(fs, file, o).Aborted? <==>
      || |file| == 0
      || exists j :: && 1 <= j < |file|
                     && ProcessRows(Start(fs), file[1..j], o).Completed?
                     && RowAborts(ProcessRows(Start(fs), file[1..j], o).st.fs, file[j], o)
  {
    if |file| > 0 {
      var rows := file[1..];
      ProcessRowsAbortAt(Start(fs), rows, o);
      forall j | 1 <= j <= |file| ensures file[1..j] == rows[..j - 1] && (j < |file| ==> file[j] == rows[j - 1]) {
      }
      if Reconcile(fs, file, o).Aborted? {
        var j :| && 0 <= j < |rows|
                 && ProcessRows(Start(fs), rows[..j], o).Completed?
                 && RowAborts(ProcessRows(Start(fs), rows[..j], o).st.fs, rows[j], o);
        assert file[1..j + 1] == rows[..j];
      }
    }
  }

  /** The whole run aborts on an empty file or a data row with more than
      three fields; it aborts only on an empty file or a fatal data row. */
  lemma ReconcileAborts(fs: set<string>, file: seq<seq<string>>, o: Oracle)
    ensures |file| == 0 || (exists j :: 1 <= j < |file| && |file[j]| > 3) ==> Reconcile(fs, file, o).Aborted?
    ensures Reconcile(fs, file, o).Aborted? ==> |file| == 0 || exists j :: 1 <= j < |file| && Fatal(file[j], o)
  {
    if |file| > 0 {
      ProcessRowsAborts(Start(fs), file[1..], o);
      if exists j :: 1 <= j < |file| && |file[j]| > 3 {
        var j :| 1 <= j < |file| && |file[j]| > 3;
        assert file[1..][j - 1] == file[j];
      }
      if exists j :: 0 <= j < |file[1..]| && Fatal(file[1..][j], o) {
        var j :| 0 <= j < |file[1..]| && Fatal(file[1..][j], o);
        assert file[j + 1] == file[1..][j];
      }
    }
  }
}

=== FILE: report.dfy ===
/** `list_mode`: the rows written to the `duplicates_<timestamp>.csv`
    report and the estimate of reclaimable space. The size column is
    rendered by the parameter `mb` (the source prints `size/1024/1024`
    with two decimals; floating-point formatting is not modelled). */
module Report {
  import opened Paths
  import opened Scanner

  const Header: seq<string> := ["Filename", "Size (MB)", "Paths"]

  /** One data row: name, rendered size, `'|'`-joined paths. */
  function Row(g: Group, mb: nat -> string): seq<string>
  {
    [g.key.name, mb(g.key.size), Join(g.paths)]
  }

  /** The whole report file: the header, then one row per group in order. */
  function Rows(gs: seq<Group>, mb: nat -> string): seq<seq<string>>
  {
    [Header] + seq(|gs|, i requires 0 <= i < |gs| => Row(gs[i], mb))
  }

  /** Bytes that removing all but one copy of a group frees. */
  function Reclaim(g: Group): int
  {
    g.key.size * (|g.paths| - 1)
  }

  /** Reference: the sum of `Reclaim` over the groups. */
  function Savings(gs: seq<Group>): int
    decreases |gs|
  {
    if |gs| == 0 then 0 else Savings(gs[..|gs| - 1]) + Reclaim(gs[|gs| - 1])
  }

  /** When every group has at least two paths, the estimate is at least
      the size of any one group's file. */
  lemma {:induction false} SavingsCoversEachGroup(gs: seq<Group>, j: nat)
    requires forall i :: 0 <= i < |gs| ==> |gs[i].paths| >= 2
    requires j < |gs|
    ensures Savings(gs) >= gs[j].key.size
    decreases |gs|
  {
    SavingsNonNegative(gs[..|gs| - 1]);
    if j < |gs| - 1 {
      var init := gs[..|gs| - 1];
      assert init[j] == gs[j];
      SavingsCoversEachGroup(init, j);
    }
  }

  lemma {:induction false} SavingsNonNegative(gs: seq<Group>)
    requires forall i :: 0 <= i < |gs| ==> |gs[i].paths| >= 1
    ensures Savings(gs) >= 0
    decreases |gs|
  {
    if |gs| > 0 {
      SavingsNonNegative(gs[..|gs| - 1]);
    }
  }

  /** Outcome of the list mode: nothing written when there are no
      duplicates; otherwise the rows of the report, the group count and
      the space estimate that are printed. */
  datatype Listing =
    | NoDuplicates(fileCount: nat)
    | Listed(fileCount: nat, groupCount: nat, rows: seq<seq<string>>, reclaimable: int)

  /** The loop of lines 66-71: one row per group after the header, and
      the running sum of reclaimable bytes. */
  method WriteRows(gs: seq<Group>, mb: nat -> string) returns (rows: seq<seq<string>>, total: int)
    ensures |rows| == |gs| + 1 && rows[0] == Header
    ensures forall i :: 0 <= i < |gs| ==> rows[i + 1] == Row(gs[i], mb)
    ensures total == Savings(gs)
  {
    rows := [Header];
    total := 0;
    var i := 0;
    while i < |gs|
      invariant 0 <= i <= |gs|
      invariant rows == Rows(gs[..i], mb)
      invariant total == Savings(gs[..i])
    {
      assert gs[..i + 1][..i] == gs[..i];
      rows := rows + [Row(gs[i], mb)];
      total := total + Reclaim(gs[i]);
      i := i + 1;
    }
    assert gs[..i] == gs;
  }

  /** `list_mode` (lines 51-77): scan, stop if there is nothing to report,
      otherwise write the header and one row per group while summing the
      reclaimable space. */
  method ListMode(es: seq<Entry>, mb: nat -> string) returns (out: Listing)
    ensures out.fileCount == CountedEntries(es)
    ensures out.NoDuplicates? <==> |FindDuplicates(es).groups| == 0
    ensures out.Listed? ==>
      var gs := FindDuplicates(es).groups;
      && out.groupCount == |gs|
      && out.rows == Rows(gs, mb)
      && out.reclaimable == Savings(gs)
      && forall i :: 0 <= i < |gs| ==> out.reclaimable >= gs[i].key.size
  {
    var found := FindDuplicates(es);
    WalkIndex(es);
    KeepDuplicatesShape(Walk(es).groups);
    var gs := found.groups;
    if |gs| == 0 {
      return NoDuplicates(found.fileCount);
    }
    var rows, total := WriteRows(gs, mb);
    assert rows == Rows(gs, mb);
    forall j | 0 <= j < |gs| ensures total >= gs[j].key.size {
      SavingsCoversEachGroup(gs, j);
    }
    out := Listed(found.fileCount, |gs|, rows, total);
  }

  /** Reading the report back: every data row has three fields, the name
      of its group, and a path column that splits back into the group's
      paths, provided no path contains the separator. */
  lemma RowsDecode(gs: seq<Group>, mb: nat -> string)
    requires forall i :: 0 <= i < |gs| ==> |gs[i].paths| >= 1
    requires forall i, j :: 0 <= i < |gs| && 0 <= j < |gs[i].paths| ==> Sep !in gs[i].paths[j]
    ensures |Rows(gs, mb)| == |gs| + 1 && Rows(gs, mb)[0] == Header
    ensures forall i :: 0 <= i < |gs| ==>
      var row := Rows(gs, mb)[i + 1];
      |row| == 3 && row[0] == gs[i].key.name && Split(row[2]) == gs[i].paths
  {
    forall i | 0 <= i < |gs|
      ensures |Rows(gs, mb)[i + 1]| == 3 && Rows(gs, mb)[i + 1][0] == gs[i].key.name
      ensures Split(Rows(gs, mb)[i + 1][2]) == gs[i].paths
    {
      RowDecodes(gs[i], mb);
    }
  }

  /** One row read back: three fields, the group's name, and its paths. */
  lemma RowDecodes(g: Group, mb: nat -> string)
    requires |g.paths| >= 1
    requires forall j :: 0 <= j < |g.paths| ==> Sep !in g.paths[j]
    ensures |Row(g, mb)| == 3 && Row(g, mb)[0] == g.key.name
    ensures Split(Row(g, mb)[2]) == g.paths
  {
    SplitJoin(g.paths);
  }
}

=== FILE: scanner.dfy ===
/** The scan of `find_duplicates`: the directory walk becomes a sequence of
    entries (directory, file name, and the outcome of the size lookup), and
    the result is the `(name, size) -> paths` index restricted to keys seen
    more than once. Python's insertion-ordered dict is an association list
    with distinct keys, so the report rows come out in first-seen order. */
module Scanner {
  import opened Paths

  /** What `os.path.getsize` gave for an entry. */
  datatype SizeLookup = Sized(bytes: nat) | LookupFailed(reason: string)

  /** One file reported by the walk: its directory, its name, its size. */
  datatype Entry = Entry(dir: string, name: string, size: SizeLookup)

  /** The duplicate heuristic: equal name and equal byte size. */
  datatype Key = Key(name: string, size: nat)

  /** The paths found under one key, in discovery order. */
  datatype Group = Group(key: Key, paths: seq<string>)

  /** The index (or its duplicates-only filter) and the count of files sized. */
  datatype Scan = Scan(groups: seq<Group>, fileCount: nat)

  /** The tool's own source and output files are never data: any `.py`
      file, any report `duplicates_*`, any log `removal_log_*`. */
  predicate Excluded(name: string)
  {
    EndsWith(name, ".py") || StartsWith(name, "duplicates_") || StartsWith(name, "removal_log_")
  }

  /** `os.path.join(dir, name)` for two components. */
  function JoinPath(dir: string, name: string): string
  {
    if StartsWith(name, "/") then name
    else if |dir| == 0 || EndsWith(dir, "/") then dir + name
    else dir + "/" + name
  }

  function PathOf(e: Entry): string
  {
    JoinPath(e.dir, e.name)
  }

  /** An entry that is not excluded and whose size could be read. */
  predicate Counted(e: Entry)
  {
    !Excluded(e.name) && e.size.Sized?
  }

  /** An entry that lands under key `k`. */
  predicate Contributes(e: Entry, k: Key)
  {
    Counted(e) && Key(e.name, e.size.bytes) == k
  }

  /** The walk reports every path at most once. */
  predicate DistinctPaths(es: seq<Entry>)
  {
    forall a, b :: 0 <= a < b < |es| ==> PathOf(es[a]) != PathOf(es[b])
  }

  // ---------------------------------------------------------------------
  // The association list standing for the dict

  /** `file_dict[k]` of a defaultdict: the paths under `k`, or none. */
  function Lookup(gs: seq<Group>, k: Key): seq<string>
    decreases |gs|
  {
    if |gs| == 0 then []
    else if gs[0].key == k then gs[0].paths
    else Lookup(gs[1..], k)
  }

  predicate HasKey(gs: seq<Group>, k: Key)
  {
    exists i :: 0 <= i < |gs| && gs[i].key == k
  }

  predicate DistinctKeys(gs: seq<Group>)
  {
    forall i, j :: 0 <= i < j < |gs| ==> gs[i].key != gs[j].key
  }

  predicate NonEmptyGroups(gs: seq<Group>)
  {
    forall i :: 0 <= i < |gs| ==> |gs[i].paths| >= 1
  }

  /** `file_dict[k].append(p)`: extends the existing group, or adds a new
      group at the end. */
  function Append(gs: seq<Group>, k: Key, p: string): seq<Group>
    decreases |gs|
  {
    if |gs| == 0 then [Group(k, [p])]
    else if gs[0].key == k then [Group(k, gs[0].paths + [p])] + gs[1..]
    else [gs[0]] + Append(gs[1..], k, p)
  }

  lemma {:induction false} LookupAbsent(gs: seq<Group>, k: Key)
    requires !HasKey(gs, k)
    ensures Lookup(gs, k) == []
    decreases |gs|
  {
    if |gs| > 0 {
      assert gs[0].key != k;
      LookupAbsent(gs[1..], k);
    }
  }

  /** With distinct keys, looking up a group's key finds that group. */
  lemma {:induction false} LookupAt(gs: seq<Group>, i: nat)
    requires DistinctKeys(gs)
    requires i < |gs|
    ensures Lookup(gs, gs[i].key) == gs[i].paths
    decreases |gs|
  {
    if i > 0 {
      assert gs[0].key != gs[i].key;
      assert gs[1..][i - 1] == gs[i];
      LookupAt(gs[1..], i - 1);
    }
  }


  lemma HasKeyCons(g: Group, gs: seq<Group>, k: Key)
    ensures HasKey([g] + gs, k) <==> g.key == k || HasKey(gs, k)
  {
    var s := [g] + gs;
    if g.key == k {
      assert s[0] == g;
    }
    if HasKey(gs, k) {
      var i :| 0 <= i < |gs| && gs[i].key == k;
      assert s[i + 1] == gs[i];
    }
    if HasKey(s, k) && g.key != k {
      var i :| 0 <= i < |s| && s[i].key == k;
      assert i > 0 && gs[i - 1] == s[i];
      assert gs[i - 1].key == k;
    }
  }

  /** Appending adds `p` at the end of `k`'s paths and touches no other key;
      it keeps keys distinct and groups non-empty. */
  lemma {:induction false} AppendSpec(gs: seq<Group>, k: Key, p: string)
    ensures forall k' :: Lookup(Append(gs, k, p), k') == Lookup(gs, k') + (if k' == k then [p] else [])
    ensures forall k' :: HasKey(Append(gs, k, p), k') <==> HasKey(gs, k') || k' == k
    ensures DistinctKeys(gs) ==> DistinctKeys(Append(gs, k, p))
    ensures NonEmptyGroups(gs) ==> NonEmptyGroups(Append(gs, k, p))
    decreases |gs|
  {
    var r := Append(gs, k, p);
    if |gs| == 0 {
      assert r[0].key == k;
      forall k' ensures HasKey(r, k') <==> HasKey(gs, k') || k' == k {
        if HasKey(r, k') { var i :| 0 <= i < |r| && r[i].key == k'; }
      }
    } else if gs[0].key == k {
      assert r[1..] == gs[1..];
      forall k' ensures HasKey(r, k') <==> HasKey(gs, k') || k' == k {
        HasKeyCons(r[0], gs[1..], k');
        HasKeyCons(gs[0], gs[1..], k');
        assert r == [r[0]] + gs[1..];
        assert gs == [gs[0]] + gs[1..];
      }
      if DistinctKeys(gs) {
        forall i, j | 0 <= i < j < |r| ensures r[i].key != r[j].key {
          assert r[i].key == gs[i].key && r[j].key == gs[j].key;
        }
      }
    } else {
      var tail := Append(gs[1..], k, p);
      AppendSpec(gs[1..], k, p);
      assert r == [gs[0]] + tail;
      assert r[1..] == tail;
      forall k' ensures HasKey(r, k') <==> HasKey(gs, k') || k' == k {
        HasKeyCons(gs[0], tail, k');
        HasKeyCons(gs[0], gs[1..], k');
        assert gs == [gs[0]] + gs[1..];
      }
      if DistinctKeys(gs) {
        assert DistinctKeys(gs[1..]) by {
          forall i, j | 0 <= i < j < |gs[1..]| ensures gs[1..][i].key != gs[1..][j].key {
            assert gs[1..][i] == gs[i + 1] && gs[1..][j] == gs[j + 1];
          }
        }
        assert !HasKey(gs[1..], gs[0].key);
        assert !HasKey(tail, gs[0].key);
        forall i, j | 0 <= i < j < |r| ensures r[i].key != r[j].key {
          if i == 0 {
            assert r[j] == tail[j - 1];
          } else {
            assert r[i] == tail[i - 1] && r[j] == tail[j - 1];
          }
        }
      }
      if NonEmptyGroups(gs) {
        assert NonEmptyGroups(gs[1..]) by {
          forall i | 0 <= i < |gs[1..]| ensures |gs[1..][i].paths| >= 1 {
            assert gs[1..][i] == gs[i + 1];
          }
        }
        forall i | 0 <= i < |r| ensures |r[i].paths| >= 1 {
          if i > 0 { assert r[i] == tail[i - 1]; }
        }
      }
    }
  }

  // ---------------------------------------------------------------------
  // The walk (lines 27-44) and the filter (line 49)

  /** One iteration of the inner loop: skip excluded names, skip entries
      whose size lookup failed, otherwise append the path under its key and
      count the file. */
  function Step(s: Scan, e: Entry): Scan
  {
    if Excluded(e.name) then s
    else match e.size
      case LookupFailed(_) => s
      case Sized(n) => Scan(Append(s.groups, Key(e.name, n), PathOf(e)), s.fileCount + 1)
  }

  /** The whole walk, entry by entry in discovery order. */
  function Walk(es: seq<Entry>): Scan
    decreases |es|
  {
    if |es| == 0 then Scan([], 0)
    else Step(Walk(es[..|es| - 1]), es[|es| - 1])
  }

  /** `{k: v for k, v in file_dict.items() if len(v) > 1}`. */
  function KeepDuplicates(gs: seq<Group>): seq<Group>
    decreases |gs|
  {
    if |gs| == 0 then []
    else (if |gs[0].paths| > 1 then [gs[0]] else []) + KeepDuplicates(gs[1..])
  }

  /** `find_duplicates()`, with the file count it reports. */
  function FindDuplicates(es: seq<Entry>): Scan
  {
    var w := Walk(es);
    Scan(KeepDuplicates(w.groups), w.fileCount)
  }

  // ---------------------------------------------------------------------
  // Reference definitions, independent of the index

  /** The paths of the entries landing under `k`, in walk order. */
  function PathsWithKey(es: seq<Entry>, k: Key): seq<string>
    decreases |es|
  {
    if |es| == 0 then []
    else
      var last := es[|es| - 1];
      PathsWithKey(es[..|es| - 1], k) + (if Contributes(last, k) then [PathOf(last)] else [])
  }

  /** The number of entries that were not excluded and could be sized. */
  function CountedEntries(es: seq<Entry>): nat
    decreases |es|
  {
    if |es| == 0 then 0
    else CountedEntries(es[..|es| - 1]) + (if Counted(es[|es| - 1]) then 1 else 0)
  }

  /** The index built by the walk holds, under every key, exactly the
      paths of the entries with that key, in walk order; it counts exactly
      the entries that were sized. */
  lemma {:induction false} WalkIndex(es: seq<Entry>)
    ensures DistinctKeys(Walk(es).groups) && NonEmptyGroups(Walk(es).groups)
    ensures forall k :: Lookup(Walk(es).groups, k) == PathsWithKey(es, k)
    ensures Walk(es).fileCount == CountedEntries(es)
    decreases |es|
  {
    if |es| > 0 {
      var init := es[..|es| - 1];
      var e := es[|es| - 1];
      WalkIndex(init);
      if Counted(e) {
        AppendSpec(Walk(init).groups, Key(e.name, e.size.bytes), PathOf(e));
      }
    }
  }

  lemma DistinctTail(gs: seq<Group>)
    requires DistinctKeys(gs) && |gs| > 0
    ensures DistinctKeys(gs[1..]) && !HasKey(gs[1..], gs[0].key)
  {
    var tail := gs[1..];
    forall i, j | 0 <= i < j < |tail| ensures tail[i].key != tail[j].key {
      assert tail[i] == gs[i + 1] && tail[j] == gs[j + 1];
    }
  }

  /** The filter keeps only groups of two or more, keeps no new key, and
      keeps keys distinct. */
  lemma {:induction false} KeepDuplicatesShape(gs: seq<Group>)
    ensures forall i :: 0 <= i < |KeepDuplicates(gs)| ==> |KeepDuplicates(gs)[i].paths| >= 2
    ensures forall k :: HasKey(KeepDuplicates(gs), k) ==> HasKey(gs, k)
    ensures DistinctKeys(gs) ==> DistinctKeys(KeepDuplicates(gs))
    decreases |gs|
  {
    if |gs| > 0 {
      var tail := gs[1..];
      var kt := KeepDuplicates(tail);
      var r := KeepDuplicates(gs);
      KeepDuplicatesShape(tail);
      forall k | HasKey(tail, k) ensures HasKey(gs, k) {
        HasKeyCons(gs[0], tail, k);
        assert gs == [gs[0]] + tail;
      }
      if |gs[0].paths| > 1 {
        assert r == [gs[0]] + kt;
        forall k | HasKey(r, k) ensures HasKey(gs, k) {
          HasKeyCons(gs[0], kt, k);
          HasKeyCons(gs[0], tail, k);
          assert gs == [gs[0]] + tail;
        }
        forall i | 0 <= i < |r| ensures |r[i].paths| >= 2 {
          if i > 0 { assert r[i] == kt[i - 1]; }
        }
        if DistinctKeys(gs) {
          DistinctTail(gs);
          assert !HasKey(kt, gs[0].key);
          forall i, j | 0 <= i < j < |r| ensures r[i].key != r[j].key {
            if i == 0 {
              assert r[j] == kt[j - 1];
            } else {
              assert r[i] == kt[i - 1] && r[j] == kt[j - 1];
            }
          }
        }
      } else {
        assert r == kt;
        if DistinctKeys(gs) {
          DistinctTail(gs);
        }
      }
    }
  }

  /** Per key, the filter keeps the paths exactly when there are two or more. */
  lemma {:induction false} KeepDuplicatesLookup(gs: seq<Group>, k: Key)
    requires DistinctKeys(gs)
    ensures Lookup(KeepDuplicates(gs), k) == (if |Lookup(gs, k)| >= 2 then Lookup(gs, k) else [])
    ensures HasKey(KeepDuplicates(gs), k) <==> |Lookup(gs, k)| >= 2
    decreases |gs|
  {
    if |gs| > 0 {
      var tail := gs[1..];
      var kt := KeepDuplicates(tail);
      var r := KeepDuplicates(gs);
      DistinctTail(gs);
      KeepDuplicatesLookup(tail, k);
      if gs[0].key == k {
        LookupAbsent(tail, k);
      }
      if |gs[0].paths| > 1 {
        assert r == [gs[0]] + kt;
        assert r[1..] == kt;
        HasKeyCons(gs[0], kt, k);
      } else {
        assert r == kt;
      }
    }
  }

  /** The filter keeps exactly the keys with two or more paths, unchanged. */
  lemma KeepDuplicatesSpec(gs: seq<Group>)
    requires DistinctKeys(gs)
    ensures DistinctKeys(KeepDuplicates(gs))
    ensures forall i :: 0 <= i < |KeepDuplicates(gs)| ==> |KeepDuplicates(gs)[i].paths| >= 2
    ensures forall k :: Lookup(KeepDuplicates(gs), k) == (if |Lookup(gs, k)| >= 2 then Lookup(gs, k) else [])
    ensures forall k :: HasKey(KeepDuplicates(gs), k) <==> |Lookup(gs, k)| >= 2
  {
    KeepDuplicatesShape(gs);
    forall k ensures Lookup(KeepDuplicates(gs), k) == (if |Lookup(gs, k)| >= 2 then Lookup(gs, k) else [])
      && (HasKey(KeepDuplicates(gs), k) <==> |Lookup(gs, k)| >= 2) {
      KeepDuplicatesLookup(gs, k);
    }
  }

  // ---------------------------------------------------------------------
  // Properties of find_duplicates

  /** The central characterisation: every group has at least two paths,
      holds exactly the paths of the walk's entries with its key in walk
      order, appears once, and every key met at least twice has a group.
      The file count is the number of entries sized. */
  lemma FindDuplicatesCorrect(es: seq<Entry>)
    ensures var r := FindDuplicates(es).groups;
      && DistinctKeys(r)
      && (forall i :: 0 <= i < |r| ==> |r[i].paths| >= 2 && r[i].paths == PathsWithKey(es, r[i].key))
      && (forall k :: HasKey(r, k) <==> |PathsWithKey(es, k)| >= 2)
    ensures FindDuplicates(es).fileCount == CountedEntries(es)
  {
    var w := Walk(es).groups;
    var r := FindDuplicates(es).groups;
    WalkIndex(es);
    KeepDuplicatesSpec(w);
    forall i | 0 <= i < |r| ensures r[i].paths == PathsWithKey(es, r[i].key) {
      LookupAt(r, i);
    }
  }

  /** Membership in the reference list: a path is listed under `k` exactly
      when some entry with that path lands under `k`. */
  lemma {:induction false} PathsWithKeyMembers(es: seq<Entry>, k: Key, p: string)
    ensures p in PathsWithKey(es, k) <==> exists j :: 0 <= j < |es| && Contributes(es[j], k) && PathOf(es[j]) == p
    decreases |es|
  {
    if |es| > 0 {
      var init := es[..|es| - 1];
      PathsWithKeyMembers(init, k, p);
      if p in PathsWithKey(init, k) {
        var j :| 0 <= j < |init| && Contributes(init[j], k) && PathOf(init[j]) == p;
        assert es[j] == init[j];
      }
      if exists j :: 0 <= j < |es| && Contributes(es[j], k) && PathOf(es[j]) == p {
        var j :| 0 <= j < |es| && Contributes(es[j], k) && PathOf(es[j]) == p;
        if j < |es| - 1 {
          assert init[j] == es[j];
        }
      }
    }
  }

  /** Every path in a group comes from a walked, non-excluded, sized entry
      carrying the group's name and size. */
  lemma GroupProvenance(es: seq<Entry>, i: nat, p: string)
    requires i < |FindDuplicates(es).groups|
    requires p in FindDuplicates(es).groups[i].paths
    ensures var g := FindDuplicates(es).groups[i];
      exists j :: 0 <= j < |es| && PathOf(es[j]) == p && !Excluded(es[j].name)
        && es[j].name == g.key.name && es[j].size == Sized(g.key.size)
  {
    var g := FindDuplicates(es).groups[i];
    FindDuplicatesCorrect(es);
    PathsWithKeyMembers(es, g.key, p);
    var j :| 0 <= j < |es| && Contributes(es[j], g.key) && PathOf(es[j]) == p;
  }

  /** No group is ever keyed by an excluded name. */
  lemma NoExcludedGroups(es: seq<Entry>)
    ensures forall i :: 0 <= i < |FindDuplicates(es).groups| ==> !Excluded(FindDuplicates(es).groups[i].key.name)
  {
    var r := FindDuplicates(es).groups;
    FindDuplicatesCorrect(es);
    forall i | 0 <= i < |r| ensures !Excluded(r[i].key.name) {
      GroupProvenance(es, i, r[i].paths[0]);
    }
  }

  /** An entry that is excluded or could not be sized contributes its path
      to no group (when the walk reports each path once). */
  lemma SkippedEntryAbsent(es: seq<Entry>, j: nat)
    requires DistinctPaths(es)
    requires j < |es| && !Counted(es[j])
    ensures forall i :: 0 <= i < |FindDuplicates(es).groups| ==> PathOf(es[j]) !in FindDuplicates(es).groups[i].paths
  {
    var r := FindDuplicates(es).groups;
    forall i | 0 <= i < |r| ensures PathOf(es[j]) !in r[i].paths {
      if PathOf(es[j]) in r[i].paths {
        GroupProvenance(es, i, PathOf(es[j]));
      }
    }
  }

  /** A skipped entry does not stop the walk: the scan of the walk with the
      entry is the scan of the walk without it. */
  lemma {:induction false} WalkSkips(a: seq<Entry>, x: Entry, b: seq<Entry>)
    requires !Counted(x)
    ensures Walk(a + [x] + b) == Walk(a + b)
    decreases |b|
  {
    var s := a + [x] + b;
    if |b| == 0 {
      assert s == a + [x];
      assert s[..|s| - 1] == a;
      assert a + b == a;
    } else {
      var b' := b[..|b| - 1];
      WalkSkips(a, x, b');
      assert s[..|s| - 1] == a + [x] + b';
      assert s[|s| - 1] == b[|b| - 1];
      var t := a + b;
      assert t[..|t| - 1] == a + b';
      assert t[|t| - 1] == b[|b| - 1];
    }
  }

  lemma SkippedEntryTransparent(a: seq<Entry>, x: Entry, b: seq<Entry>)
    requires !Counted(x)
    ensures FindDuplicates(a + [x] + b) == FindDuplicates(a + b)
  {
    WalkSkips(a, x, b);
  }

  /** Discovery order: the paths the first `n` entries put under `k` come
      first, in the same order, in the final list for `k`. */
  lemma {:induction false} DiscoveryOrder(es: seq<Entry>, n: nat, k: Key)
    requires n <= |es|
    ensures PathsWithKey(es[..n], k) <= PathsWithKey(es, k)
    decreases |es|
  {
    if n < |es| {
      var init := es[..|es| - 1];
      DiscoveryOrder(init, n, k);
      assert init[..n] == es[..n];
    } else {
      assert es[..n] == es;
    }
  }

  /** When the walk reports each path once, a key's paths are distinct. */
  lemma {:induction false} PathsWithKeyDistinct(es: seq<Entry>, k: Key)
    requires DistinctPaths(es)
    ensures Distinct(PathsWithKey(es, k))
    decreases |es|
  {
    if |es| > 0 {
      var init := es[..|es| - 1];
      var last := es[|es| - 1];
      assert DistinctPaths(init) by {
        forall a, b | 0 <= a < b < |init| ensures PathOf(init[a]) != PathOf(init[b]) {
          assert init[a] == es[a] && init[b] == es[b];
        }
      }
      PathsWithKeyDistinct(init, k);
      if Contributes(last, k) {
        PathsWithKeyMembers(init, k, PathOf(last));
      }
    }
  }

  /** When the walk reports each path once, no path is twice in a group. */
  lemma GroupPathsDistinct(es: seq<Entry>, i: nat)
    requires DistinctPaths(es)
    requires i < |FindDuplicates(es).groups|
    ensures Distinct(FindDuplicates(es).groups[i].paths)
  {
    FindDuplicatesCorrect(es);
    PathsWithKeyDistinct(es, FindDuplicates(es).groups[i].key);
  }

  /** One group of the result: the walk filtered to its key, under a key
      no other group has. */
  lemma GroupIsFilter(es: seq<Entry>, i: nat)
    requires i < |FindDuplicates(es).groups|
    ensures var r := FindDuplicates(es).groups;
      && r[i].paths == PathsWithKey(es, r[i].key)
      && forall j :: 0 <= j < |r| && j != i ==> r[j].key != r[i].key
  {
    FindDuplicatesCorrect(es);
  }

  /** When the walk reports each path once, no path is in two groups. */
  lemma GroupsDisjoint(es: seq<Entry>, i: nat, j: nat)
    requires DistinctPaths(es)
    requires i < |FindDuplicates(es).groups| && j < |FindDuplicates(es).groups| && i != j
    ensures forall p :: p in FindDuplicates(es).groups[i].paths ==> p !in FindDuplicates(es).groups[j].paths
  {
    var r := FindDuplicates(es).groups;
    GroupIsFilter(es, i);
    GroupIsFilter(es, j);
    forall p | p in r[i].paths ensures p !in r[j].paths {
      PathsWithKeyMembers(es, r[i].key, p);
      PathsWithKeyMembers(es, r[j].key, p);
      var a :| 0 <= a < |es| && Contributes(es[a], r[i].key) && PathOf(es[a]) == p;
      forall b | 0 <= b < |es| && PathOf(es[b]) == p ensures !Contributes(es[b], r[j].key) {
        assert b == a;
      }
    }
  }
}

=== FILE: scenarios.dfy ===
/** Worked scenarios: the scan of two same-named, same-sized files and
    one singleton; a report row whose original has disappeared; and a
    file name holding the path separator, whose report row splits into
    extra pieces and deletes a file outside its group. */
module Scenarios {
  import opened Paths
  import opened Scanner
  import opened Report
  import opened Reconciler

  lemma NamesKept()
    ensures !Excluded("a.txt") && !Excluded("b.txt")
    ensures JoinPath("./x", "a.txt") == "./x/a.txt" && JoinPath("./y", "a.txt") == "./y/a.txt"
    ensures JoinPath("./x", "b.txt") == "./x/b.txt"
  {
    assert "a.txt"[2..] != ".py" && "b.txt"[2..] != ".py";
    assert "./x"[2..] != "/" && "./y"[2..] != "/";
  }

  lemma FirstTwo()
    ensures Walk([Entry("./x", "a.txt", Sized(10)), Entry("./y", "a.txt", Sized(10))]).groups
      == [Group(Key("a.txt", 10), ["./x/a.txt", "./y/a.txt"])]
  {
    NamesKept();
    var e1 := Entry("./x", "a.txt", Sized(10));
    var e2 := Entry("./y", "a.txt", Sized(10));
    assert [e1, e2][..1] == [e1];
    assert [e1][..0] == [];
    assert PathOf(e1) == "./x/a.txt" && PathOf(e2) == "./y/a.txt";
    assert Walk([e1]) == Step(Walk([]), e1);
    var w1 := Walk([e1]);
    assert w1 == Scan(Append([], Key("a.txt", 10), "./x/a.txt"), 1);
    assert w1.groups == [Group(Key("a.txt", 10), ["./x/a.txt"])];
    assert Walk([e1, e2]) == Step(w1, e2);
    assert Step(w1, e2).groups == Append(w1.groups, Key("a.txt", 10), "./y/a.txt");
    assert ["./x/a.txt"] + ["./y/a.txt"] == ["./x/a.txt", "./y/a.txt"];
  }

  /** `a.txt` (10 bytes) under `./x` and `./y`, `b.txt` (10 bytes) under
      `./x` only: exactly one group, for `a.txt`, in discovery order. */
  lemma TwoCopiesOneGroup()
    ensures FindDuplicates([Entry("./x", "a.txt", Sized(10)), Entry("./y", "a.txt", Sized(10)), Entry("./x", "b.txt", Sized(10))]).groups
      == [Group(Key("a.txt", 10), ["./x/a.txt", "./y/a.txt"])]
  {
    NamesKept();
    FirstTwo();
    var e1 := Entry("./x", "a.txt", Sized(10));
    var e2 := Entry("./y", "a.txt", Sized(10));
    var e3 := Entry("./x", "b.txt", Sized(10));
    var es := [e1, e2, e3];
    assert es[..2] == [e1, e2];
    var g := Group(Key("a.txt", 10), ["./x/a.txt", "./y/a.txt"]);
    var gb := Group(Key("b.txt", 10), ["./x/b.txt"]);
    assert Walk(es) == Step(Walk([e1, e2]), e3);
    assert Walk(es).groups == [g, gb];
    assert KeepDuplicates([gb]) == [];
    assert [g, gb][1..] == [gb];
  }

  lemma SplitScenarioPaths()
    ensures Split("/missing/a.txt|/real/a.txt") == ["/missing/a.txt", "/real/a.txt"]
  {
    var first := "/missing/a.txt";
    var later := "/real/a.txt";
    assert Sep !in first && Sep !in later;
    assert "/missing/a.txt|/real/a.txt" == first + [Sep] + later;
    SplitAfterSep(first, later);
    SplitJoin([later]);
  }

  /** A row whose first path is missing leaves the existing later path in
      place and records nothing. */
  lemma MissingOriginalTouchesNothing(o: Oracle)
    ensures var fs := {"/real/a.txt"};
      Reconcile(fs, [Header, ["a.txt", "0.00", "/missing/a.txt|/real/a.txt"]], o) == Completed(Start(fs))
  {
    var fs := {"/real/a.txt"};
    var row := ["a.txt", "0.00", "/missing/a.txt|/real/a.txt"];
    var file := [Header, row];
    SplitScenarioPaths();
    assert "/missing/a.txt" !in fs;
    assert ProcessRow(Start(fs), row, o) == Completed(Start(fs));
    assert file[1..] == [row];
    assert [row][1..] == [];
    assert ProcessRows(Start(fs), [row], o) == ProcessRows(Start(fs), [], o);
  }

  /** Two paths that share a last name component holding the separator
      (`a|y` and `b|y`): their join splits into four pieces. */
  lemma {:induction false} SplitSharedSeparatedName(a: string, y: string, b: string)
    requires Sep !in a && Sep !in y && Sep !in b
    ensures Split(Join([a + [Sep] + y, b + [Sep] + y])) == [a, y, b, y]
  {
    var p := a + [Sep] + y;
    var q := b + [Sep] + y;
    assert Join([p, q]) == p + [Sep] + Join([q]);
    assert Join([q]) == q;
    SplitJoin([y]);
    assert Join([y]) == y;
    SplitAfterSep(b, y);
    SplitAfterSep(y, q);
    assert p + [Sep] + q == a + [Sep] + (y + [Sep] + q);
    SplitAfterSep(a, y + [Sep] + q);
  }

  /** A group whose file name holds the separator deletes a file outside
      the group. For the group `x|y` with paths `./a/x|y` and `./b/x|y`,
      the row splits into `./a/x`, `y`, `./b/x`, `y`. The row acts only if
      `./a/x` exists (it is taken as the original); then an existing
      `./b/x` is deleted. When `./a/x` is not in the group `x` (it has
      another size, or is a directory) and `./c/x` has the size of
      `./b/x`, that `./b/x` is the first path of the group `x`, which the
      removal is meant to keep. */
  lemma SeparatorInNameDeletesOther(fs: set<string>, g: Group, mb: nat -> string, o: Oracle, a: string, y: string, b: string)
    requires Sep !in a && Sep !in y && Sep !in b
    requires g.paths == [a + [Sep] + y, b + [Sep] + y]
    requires a in fs && y !in fs && b in fs && b !in o.failures
    ensures b in RowTail(Row(g, mb))
    ensures b !in ProcessRow(Start(fs), Row(g, mb), o).st.fs
  {
    var row := Row(g, mb);
    SplitSharedSeparatedName(a, y, b);
    var ps := Split(row[2]);
    assert ps == [a, y, b, y];
    var st1 := Start(fs).(kept := [] + [a]);
    var tail := ps[1..];
    assert tail == [y, b, y];
    if o.isFloat(row[1]) {
      RemoveDuplicatesEffect(st1, tail, row[1], o);
    } else {
      RemoveDuplicatesFloatAbort(st1, tail, row[1], o, 1);
    }
  }
}
